=== FILE: README.md ===
# Campus event registration: the domain logic as a Dafny model

The application is a small campus event-registration web service. Students
sign up and ask to attend events. An administrator creates, edits and deletes
events, deletes students, and approves or rejects registrations. The
administrator's "manage events" page lists every event with its registration
counts, broken down by student section.

This project models the logic behind those routes. The three record shapes are
students, events and registrations. The store holding them is one immutable
value, `Stores.Store`. Every write is a pure function of the store. Sign-up,
the registration request and event create and update return a reply together
with the new store. Event and student deletion, approval and rejection return
only the new store, since their routes always give the same reply. The current
instant `now` is an integer parameter.

- `records.dfy` (module `Records`): the three records. It also holds the
  enumerations: section EV-1..EV-5, category Sports/Technical/Cultural/Other,
  and status pending/approved/rejected. The schemas' required-field checks
  and defaults are `NewStudent`, `NewEvent` and `NewRegistration`.
- `store.dfy` (module `Stores`): the store and lookups by identity. A lookup
  returns the first match, as `findById` does. The consistency invariant
  `Valid` asks for unique identities, unique emails, the student's required
  fields, and at most one registration per (student, event) pair.
- `enrollment.dfy` (module `Enrollment`): the request to register for an
  event, and the administrator's approval and rejection.
- `admin.dfy` (module `Admin`): sign-up, which always assigns section EV-1.
  Event create and update, each behind the past-date guard. Event and student
  deletion, each with its cascade to registrations.
- `manage.dfy` (module `Manage`): the per-event aggregation of the manage
  page. `Summary` is the reference definition. `Summarize` computes the same
  row the way the page does, with a per-registration tally loop.
- `session.dfy` (module `Session`): any sequence of writes keeps the store
  consistent. It also holds a worked aggregation example.
- `seqs.dfy` and `optional.dfy`: the collection operations the store performs
  (first match, filter, remove one) and an optional value.

The model follows the code in these places:

- Approving or rejecting an unknown registration identity changes nothing and
  reports no error.
- A registration request does not check that the student exists. A
  registration can therefore refer to a student that is not in the store.
  Only this student half of referential integrity is missing. Every
  registration names a stored event, because a request for an unknown event
  is refused and deleting an event deletes its registrations.
- Sign-up always stores section "EV-1", whatever else is submitted.
- An event update does not run the schema's validators. An empty title
  is stored on update, although it is refused on create.
- Capacity is any integer. The schema does not enforce a lower bound.
- Neither event route supplies a category. Every event created through the
  routes therefore has category "Other".

## Model

| member | source | states |
|---|---|---|
| Records.ParseSection | models/register.js:7-9 | a section code is accepted exactly when it is one of EV-1..EV-5, and then it names the section whose code it is (both directions) |
| Records.ParseCategory | models/event.js:11-13 | a category is accepted exactly when it is Sports, Technical, Cultural or Other, and names that category |
| Records.ParseStatus | models/eventRegistration.js:6 | a status is accepted exactly when it is pending, approved or rejected, and names that status |
| Records.NewStudent | models/register.js:3-12 | a student is created exactly when name, email and password are non-empty and the section is one of the five codes; the record holds exactly the given fields |
| Records.NewEvent | models/event.js:3-17 | an event is created exactly when it has a non-empty title and a date (and any given category is valid); capacity defaults to 0, category defaults to Other, poster stays absent when not given, createdAt is the creation instant |
| Records.NewRegistration | models/eventRegistration.js:3-7 | a registration is created exactly when its status, if given, is one of pending, approved or rejected; it keeps the given, possibly absent, student and event references; without a status it is pending |
| Stores.EventById | index.js:112-113 | the event found has the requested identity and is stored; nothing is found exactly when no stored event has that identity |
| Enrollment.HasRegistration | index.js:121-122 | the duplicate check holds exactly when some registration links this student to this event, whatever its status |
| Enrollment.RegisterEvent | index.js:106-134 | an unknown event gives EventNotFound; a past event gives Closed even when the pair is already registered; an existing pair gives AlreadyRegistered; every refusal leaves the store unchanged; success appends exactly one pending registration with a fresh identity and keeps every other record |
| Enrollment.RegisterEventPreservesValid | index.js:120-127 | a registration request keeps the store consistent, so a pair is never registered twice |
| Enrollment.RegisterTwiceRefused | index.js:115-124 | after a successful request, a second request for the same pair is refused (as Closed if the event has passed by then, otherwise as AlreadyRegistered) and changes nothing |
| Enrollment.RejectedIsFinal | index.js:121-124 | after a registration is rejected, whatever its status was before, its student cannot register for that event again |
| Enrollment.SetStatus | index.js:314-332 | only the status of the registration with that identity changes; other registrations, students, events and identities are unchanged; an unknown identity leaves the store unchanged |
| Enrollment.Approve | index.js:314-322 | the registration with that identity, if any, is now approved and keeps its identity and references; no other registration changes; students, events and the identity counter are kept; an unknown identity leaves the store unchanged |
| Enrollment.Reject | index.js:324-332 | the registration with that identity, if any, is now rejected and keeps its identity and references; no other registration changes; students, events and the identity counter are kept; an unknown identity leaves the store unchanged |
| Enrollment.SetStatusIdempotent | index.js:316 | approving (or rejecting) twice gives the same store as doing it once |
| Enrollment.SetStatusTargetsOne | index.js:316 | in a consistent store the registration with that identity receives the new status whatever its previous status was; every other registration is unchanged |
| Enrollment.SetStatusPreservesValid | index.js:326 | approval and rejection keep the store consistent |
| Admin.EmailTaken | models/register.js:5 | the unique-email check holds exactly when some stored student has that email |
| Admin.InsertStudent | index.js:46-59 | missing name, email or password is refused first; then a used email is refused; refusals change nothing; success appends one student with section EV-1 and a fresh identity |
| Admin.InsertStudentPreservesValid | models/register.js:5 | sign-up keeps emails unique and identities fresh |
| Admin.SecondSignUpRefused | models/register.js:5 | once an email has signed up, a second sign-up with it never succeeds |
| Admin.CreateEvent | index.js:139-155 | the request is refused as a past date exactly when the date is before now (a date equal to now is accepted); a missing title or unreadable date is refused by the schema; refusals change nothing; a created event is not in the past, has the form's title, description, date and location, capacity defaulting to 0, category Other and createdAt now, and is appended with a fresh identity |
| Admin.Edit | index.js:179-180 | an update writes title, description, date and location, writes capacity and poster only when supplied, and keeps identity, createdAt and category |
| Admin.UpdateEvent | index.js:170-188 | refused as a past date exactly when the date is before now; refusals change nothing; an unknown identity changes nothing; otherwise only the event with that identity is edited |
| Admin.CreateEventPreservesValid | index.js:149 | event creation keeps the store consistent |
| Admin.UpdateEventPreservesValid | index.js:182 | event update keeps the store consistent |
| Admin.DeleteEvent | index.js:191-200 | no remaining registration refers to the deleted event; every registration that did not refer to it is kept; at most one event is removed and every other event is kept |
| Admin.DeleteStudent | index.js:302-311 | no remaining registration refers to the deleted student; every registration that did not refer to them is kept; at most one student is removed and every other student is kept |
| Admin.DeleteEventPreservesValid | index.js:193-194 | deleting an event keeps the store consistent |
| Admin.DeleteStudentPreservesValid | index.js:304-305 | deleting a student keeps the store consistent |
| Admin.DeleteEventComplete | index.js:193-194 | in a consistent store, after the deletion no event has that identity and no registration refers to it |
| Admin.DeleteStudentComplete | index.js:304-305 | in a consistent store, after the deletion no student has that identity and no registration refers to it |
| Manage.SortByDate | index.js:223 | the events come out in ascending date order, as a permutation of the stored events |
| Manage.EventRegistrations | index.js:228-230 | an event's registrations are exactly the stored registrations whose event reference names it, each as often as it is stored, so their number is the row's total |
| Seqs.FilterMultiset | index.js:228 | a filter keeps each matching element exactly as often as it occurs, in any input, and drops every other element |
| Manage.SectionOf | index.js:237-238 | a registration has a section exactly when its student reference is present and names a stored student, and that section is the student's |
| Manage.SectionTable | index.js:235-241 | a section is a key exactly when it has at least one approved registration of a resolvable student, and its entry is that number |
| Manage.RowFacts | index.js:226-250 | a row is completed exactly when the event's date is before now; approved plus rejected never exceeds the total; the section counts sum to at most the approved count; every listed section has an approved registration of this event behind it |
| Manage.StatusCountsBound | index.js:230-232 | no registration is counted as both approved and rejected |
| Manage.SectionTotalBound | index.js:234-241 | each approved registration is counted in at most one section |
| Manage.Summarize | index.js:226-251 | the row built by filtering and tallying one registration at a time equals the reference row |
| Manage.ManageView | index.js:222-252 | there is one row per stored event, the rows follow ascending event date, and each row is its event's reference row |
| Manage.UnrelatedRegistrationIgnored | index.js:228 | a registration that does not refer to an event, including one with no event reference, leaves that event's row unchanged wherever it appears |
| Manage.UnresolvedStudentInNoSection | index.js:237 | an approved registration whose student reference does not resolve adds one to the total and the approved count and nothing to any section |
| Session.ReachableValid | index.js:121-127 | every sequence of sign-ups, registrations, event writes, deletions, approvals and rejections keeps the store consistent, so identities and emails stay unique and no (student, event) pair is registered twice |
| Session.ReachableFromEmpty | index.js:112-194 | every store reached from the empty store by any sequence of the eight writes is consistent, and each of its registrations names a stored event |
| Enrollment.RegisterEventResolves | index.js:112-127 | a registration request only ever stores a registration that names a stored event |
| Enrollment.SetStatusResolves | index.js:316 | approval and rejection leave every event reference resolvable |
| Admin.CreateEventResolves | index.js:149 | creating an event keeps every event reference resolvable |
| Admin.UpdateEventResolves | index.js:182 | updating an event keeps its identity, so every event reference still resolves |
| Admin.DeleteEventResolves | index.js:193-194 | deleting an event, with its registrations, leaves no registration naming a missing event |
| Admin.DeleteStudentResolves | index.js:304-305 | deleting a student, with their registrations, leaves every event reference resolvable |
| Session.ReachableResolves | index.js:112-194 | every sequence of the eight writes from a store whose event references resolve keeps them resolvable |
| Session.NeverReopens | index.js:314-332 | in a consistent store, a registration that has been approved or rejected is never pending again, whatever writes follow; it may only be deleted along with its event or student |
| Session.ManageScenario | index.js:226-250 | an event with two approved EV-1 registrations, one rejected and one pending has total 4, approved 2, rejected 1 and section table {EV-1: 2} |

## Left out

- Routing, redirects, reply messages and page rendering are left out. They are transport and view concerns; the model returns a reply value instead.
- Poster upload storage and its time- and random-based file names are left out. The poster is an optional opaque string.
- The database connection, and store failures with their generic error replies, are left out. They are I/O.
- Login, the fixed administrator credential and the plaintext password comparison are left out. They are credential handling, not domain logic. The password is kept as an opaque string.
- The window between the duplicate check and the insert in the registration request is left out. The model treats each request as one atomic step.
- Dates are integers. Parsing of form dates is not modelled: an empty or unparseable date is an absent date. On update, the real store turns an empty date string into an empty date; the model refuses it instead.
- Identities are natural numbers, so malformed identity strings and their cast errors are not modelled.
- A registration request with no student identity in the body is not modelled.
- Empty form fields are treated as given strings. The store's conversion of an empty capacity to a null value is not modelled.
- Document counts for the dashboard totals, the dashboard's other pages, the student home page and the student edit route are left out. They are plain reads, or one field overwrite with nothing to prove. As a consequence a stored student's section never changes in the model.
- Capacity is an integer; fractional numbers are not modelled.
- A capacity that cannot be read as a number is not modelled. The store refuses such a form on create and on update and stores nothing; the model's form has no way to carry it.

=== FILE: admin.dfy ===
/** The administrator's and the sign-up form's writes: creating students,
    creating, updating and deleting events, and deleting students, with the
    past-date guard on events and the cascades to registrations. */
module Admin {
  import opened Optional
  import opened Records
  import opened Seqs
  import opened Stores

  /** The section every self-registered student starts in. */
  const InitialSection: string := "EV-1"

  /** The replies to a sign-up. */
  datatype StudentOutcome = InvalidStudent | DuplicateEmail | StudentCreated(id: Id)

  /** The fields of the event form. `date` is absent when the form's date
      cannot be read as an instant; `capacity` is absent when not supplied. */
  datatype EventForm = EventForm(
    title: string,
    description: string,
    date: Option<int>,
    location: string,
    capacity: Option<int>)

  /** The replies to an event create or update. An update of an unknown
      event also replies `EventUpdated`. */
  datatype EventOutcome = PastDate | InvalidEvent | EventCreated(id: Id) | EventUpdated

  function HasEmail(email: string): Student -> bool
  {
    (s: Student) => s.email == email
  }

  /** The unique index on email: some student already uses it. */
  function EmailTaken(students: seq<Student>, email: string): (b: bool)
    ensures b <==> exists i :: 0 <= i < |students| && students[i].email == email
  {
    FirstIndex(students, HasEmail(email)).Some?
  }

  /** Sign-up: the required fields are checked first, then the unique email;
      the new student always gets the initial section, whatever else is
      submitted. */
  function InsertStudent(st: Store, name: string, email: string, password: string): (r: Step<StudentOutcome>)
    ensures r.outcome == InvalidStudent <==> !(Given(name) && Given(email) && Given(password))
    ensures r.outcome == DuplicateEmail <==>
      Given(name) && Given(email) && Given(password) && EmailTaken(st.students, email)
    ensures !r.outcome.StudentCreated? ==> r.store == st
    ensures r.outcome.StudentCreated? ==>
      && r.outcome.id == st.nextId
      && r.store.events == st.events
      && r.store.registrations == st.registrations
      && r.store.nextId == st.nextId + 1
      && r.store.students == st.students + [Student(st.nextId, name, email, password, EV1)]
  {
    match NewStudent(st.nextId, name, email, password, InitialSection)
    case None => Step(InvalidStudent, st)
    case Some(s) =>
      if EmailTaken(st.students, email) then Step(DuplicateEmail, st)
      else Step(StudentCreated(s.id), st.(students := st.students + [s], nextId := st.nextId + 1))
  }

  /** The past-date guard. A date that could not be read compares false
      against the current instant, so it is not "before now". */
  predicate BeforeNow(date: Option<int>, now: int)
  {
    date.Some? && date.value < now
  }

  /** Create an event. The past-date guard runs first; then the event
      schema requires a title and a date and fills in the defaults (the
      form never supplies a category). */
  function CreateEvent(st: Store, now: int, form: EventForm, poster: Option<string>): (r: Step<EventOutcome>)
    ensures r.outcome == PastDate <==> BeforeNow(form.date, now)
    ensures r.outcome == InvalidEvent <==> !BeforeNow(form.date, now) && !(Given(form.title) && form.date.Some?)
    ensures !r.outcome.EventCreated? ==> r.store == st
    ensures r.outcome.EventCreated? ==>
      && r.outcome.id == st.nextId
      && r.store.students == st.students
      && r.store.registrations == st.registrations
      && r.store.nextId == st.nextId + 1
      && |r.store.events| == |st.events| + 1
      && r.store.events[..|st.events|] == st.events
    ensures r.outcome.EventCreated? ==>
      var e := r.store.events[|st.events|];
      && e.id == st.nextId && e.title == form.title && Some(e.date) == form.date && now <= e.date
      && e.description == form.description && e.location == form.location
      && e.capacity == (if form.capacity.Some? then form.capacity.value else 0) && e.category == Other
      && e.poster == poster && e.createdAt == now
  {
    if BeforeNow(form.date, now) then Step(PastDate, st)
    else
      match NewEvent(st.nextId, form.title, form.description, form.date, form.location,
                     form.capacity, poster, None, now)
      case None => Step(InvalidEvent, st)
      case Some(e) =>
        assert (st.events + [e])[..|st.events|] == st.events;
        Step(EventCreated(e.id), st.(events := st.events + [e], nextId := st.nextId + 1))
  }

  /** The fields an update writes: title, description, date, location, and
      the capacity and poster when supplied. Identity, creation instant and
      category are kept. The update does not run the schema's validators. */
  function Edit(e: Event, form: EventForm, poster: Option<string>): (r: Event)
    requires form.date.Some?
    ensures r.id == e.id && r.createdAt == e.createdAt && r.category == e.category
    ensures r.title == form.title && r.date == form.date.value
    ensures r.description == form.description && r.location == form.location
    ensures r.capacity == (if form.capacity.Some? then form.capacity.value else e.capacity)
    ensures r.poster == (if poster.Some? then poster else e.poster)
  {
    e.(title := form.title, description := form.description, date := form.date.value,
       location := form.location, capacity := if form.capacity.Some? then form.capacity.value else e.capacity,
       poster := if poster.Some? then poster else e.poster)
  }

  /** Update an event. The past-date guard runs first; an unreadable date
      is refused by the store; otherwise the first event with that identity
      is edited, and an unknown identity changes nothing. */
  function UpdateEvent(st: Store, now: int, id: Id, form: EventForm, poster: Option<string>): (r: Step<EventOutcome>)
    ensures r.outcome == PastDate <==> BeforeNow(form.date, now)
    ensures r.outcome == InvalidEvent <==> form.date.None?
    ensures r.outcome == EventUpdated <==> form.date.Some? && now <= form.date.value
    ensures r.outcome != EventUpdated ==> r.store == st
    ensures EventById(st.events, id).None? ==> r.store == st
    ensures r.store.students == st.students && r.store.registrations == st.registrations
    ensures r.store.nextId == st.nextId && |r.store.events| == |st.events|
    ensures forall i :: 0 <= i < |st.events| && st.events[i].id != id ==> r.store.events[i] == st.events[i]
    ensures r.outcome == EventUpdated && EventById(st.events, id).Some? ==>
      EventById(r.store.events, id) == Some(Edit(EventById(st.events, id).value, form, poster))
  {
    if BeforeNow(form.date, now) then Step(PastDate, st)
    else if form.date.None? then Step(InvalidEvent, st)
    else
      match FirstIndex(st.events, IsEvent(id))
      case None => Step(EventUpdated, st)
      case Some(k) =>
        var events := st.events[k := Edit(st.events[k], form, poster)];
        FirstIndexAgrees(st.events, events, IsEvent(id));
        Step(EventUpdated, st.(events := events))
  }

  function NotForEvent(id: Id): Registration -> bool
  {
    (r: Registration) => r.event != Some(id)
  }

  function NotForStudent(id: Id): Registration -> bool
  {
    (r: Registration) => r.student != Some(id)
  }

  /** Delete an event (the first with that identity, if any) and every
      registration that refers to it. */
  function DeleteEvent(st: Store, id: Id): (r: Store)
    ensures r.students == st.students && r.nextId == st.nextId
    ensures forall i :: 0 <= i < |r.registrations| ==> r.registrations[i].event != Some(id)
    ensures forall i :: 0 <= i < |r.registrations| ==> r.registrations[i] in st.registrations
    ensures forall i :: 0 <= i < |st.registrations| && st.registrations[i].event != Some(id) ==>
      st.registrations[i] in r.registrations
    ensures |r.events| == |st.events| - (if EventById(st.events, id).Some? then 1 else 0)
    ensures forall i :: 0 <= i < |r.events| ==> r.events[i] in st.events
    ensures forall i :: 0 <= i < |st.events| && st.events[i].id != id ==> st.events[i] in r.events
  {
    var events := match FirstIndex(st.events, IsEvent(id))
      case None => st.events
      case Some(k) =>
        var rest := RemoveAt(st.events, k);
        assert forall i :: 0 <= i < |st.events| && i != k ==> st.events[i] == rest[if i < k then i else i - 1];
        rest;
    st.(events := events, registrations := Filter(st.registrations, NotForEvent(id)))
  }

  /** Delete a student (the first with that identity, if any) and every
      registration that refers to them. */
  function DeleteStudent(st: Store, id: Id): (r: Store)
    ensures r.events == st.events && r.nextId == st.nextId
    ensures forall i :: 0 <= i < |r.registrations| ==> r.registrations[i].student != Some(id)
    ensures forall i :: 0 <= i < |r.registrations| ==> r.registrations[i] in st.registrations
    ensures forall i :: 0 <= i < |st.registrations| && st.registrations[i].student != Some(id) ==>
      st.registrations[i] in r.registrations
    ensures |r.students| == |st.students| - (if StudentById(st.students, id).Some? then 1 else 0)
    ensures forall i :: 0 <= i < |r.students| ==> r.students[i] in st.students
    ensures forall i :: 0 <= i < |st.students| && st.students[i].id != id ==> st.students[i] in r.students
  {
    var students := match FirstIndex(st.students, IsStudent(id))
      case None => st.students
      case Some(k) =>
        var rest := RemoveAt(st.students, k);
        assert forall i :: 0 <= i < |st.students| && i != k ==> st.students[i] == rest[if i < k then i else i - 1];
        rest;
    st.(students := students, registrations := Filter(st.registrations, NotForStudent(id)))
  }

  /** Sign-up keeps the store consistent, emails unique in particular. */
  lemma InsertStudentPreservesValid(st: Store, name: string, email: string, password: string)
    requires Valid(st)
    ensures Valid(InsertStudent(st, name, email, password).store)
  {
    var r := InsertStudent(st, name, email, password);
    if r.outcome.StudentCreated? {
      var ss := r.store.students;
      forall i, j | 0 <= i < j < |ss| ensures ss[i].email != ss[j].email && ss[i].id != ss[j].id {
        assert ss[i] == st.students[i];
        if j < |st.students| {
          assert ss[j] == st.students[j];
        }
      }
    }
  }

  /** Once an email has signed up, signing up again with it is refused. */
  lemma SecondSignUpRefused(st: Store, name: string, email: string, password: string,
                            name2: string, password2: string)
    requires InsertStudent(st, name, email, password).outcome.StudentCreated?
    ensures InsertStudent(InsertStudent(st, name, email, password).store, name2, email, password2).outcome
      in {InvalidStudent, DuplicateEmail}
  {
    var ss := InsertStudent(st, name, email, password).store.students;
    assert ss[|ss| - 1].email == email;
  }

  /** Creating an event keeps the store consistent. */
  lemma CreateEventPreservesValid(st: Store, now: int, form: EventForm, poster: Option<string>)
    requires Valid(st)
    ensures Valid(CreateEvent(st, now, form, poster).store)
  {
    var r := CreateEvent(st, now, form, poster);
    if r.outcome.EventCreated? {
      var es := r.store.events;
      forall i, j | 0 <= i < j < |es| ensures es[i].id != es[j].id {
        assert es[i] == st.events[i];
        if j < |st.events| {
          assert es[j] == st.events[j];
        }
      }
    }
  }

  /** Updating an event keeps the store consistent. */
  lemma UpdateEventPreservesValid(st: Store, now: int, id: Id, form: EventForm, poster: Option<string>)
    requires Valid(st)
    ensures Valid(UpdateEvent(st, now, id, form, poster).store)
  {
    var r := UpdateEvent(st, now, id, form, poster);
    var es := r.store.events;
    forall i, j | 0 <= i < j < |es| ensures es[i].id != es[j].id && es[i].id < st.nextId {
      assert es[i].id == st.events[i].id && es[j].id == st.events[j].id;
    }
    forall i | 0 <= i < |es| ensures es[i].id < st.nextId {
      assert es[i].id == st.events[i].id;
    }
  }

  /** Deleting an event keeps the store consistent. */
  lemma DeleteEventPreservesValid(st: Store, id: Id)
    requires Valid(st)
    ensures Valid(DeleteEvent(st, id))
  {
    FilterDistinct(st.registrations, NotForEvent(id), RegistrationKey);
    FilterDistinct(st.registrations, NotForEvent(id), PairOf);
    match FirstIndex(st.events, IsEvent(id))
    case None =>
    case Some(k) => RemoveAtDistinct(st.events, k, EventKey);
  }

  /** Deleting a student keeps the store consistent. */
  lemma DeleteStudentPreservesValid(st: Store, id: Id)
    requires Valid(st)
    ensures Valid(DeleteStudent(st, id))
  {
    FilterDistinct(st.registrations, NotForStudent(id), RegistrationKey);
    FilterDistinct(st.registrations, NotForStudent(id), PairOf);
    match FirstIndex(st.students, IsStudent(id))
    case None =>
    case Some(k) =>
      RemoveAtDistinct(st.students, k, StudentKey);
      RemoveAtDistinct(st.students, k, EmailOf);
  }

  /** In a consistent store, a deleted event is gone: no event and no
      registration refers to its identity any more. */
  lemma DeleteEventComplete(st: Store, id: Id)
    requires Valid(st)
    ensures EventById(DeleteEvent(st, id).events, id).None?
    ensures forall i :: 0 <= i < |DeleteEvent(st, id).registrations| ==>
      DeleteEvent(st, id).registrations[i].event != Some(id)
  {
    var es := DeleteEvent(st, id).events;
    forall i | 0 <= i < |es| ensures es[i].id != id {
      var k := FirstIndex(st.events, IsEvent(id));
      if k.Some? {
        var rest := RemoveAt(st.events, k.value);
        assert es == rest;
        var i' := if i < k.value then i else i + 1;
        assert es[i] == st.events[i'] && i' != k.value;
        assert EventKey(st.events[i']) != EventKey(st.events[k.value]);
      }
    }
  }

  /** In a consistent store, a deleted student is gone: no student and no
      registration refers to their identity any more. */
  lemma DeleteStudentComplete(st: Store, id: Id)
    requires Valid(st)
    ensures StudentById(DeleteStudent(st, id).students, id).None?
    ensures forall i :: 0 <= i < |DeleteStudent(st, id).registrations| ==>
      DeleteStudent(st, id).registrations[i].student != Some(id)
  {
    var ss := DeleteStudent(st, id).students;
    forall i | 0 <= i < |ss| ensures ss[i].id != id {
      var k := FirstIndex(st.students, IsStudent(id));
      if k.Some? {
        var rest := RemoveAt(st.students, k.value);
        assert ss == rest;
        var i' := if i < k.value then i else i + 1;
        assert ss[i] == st.students[i'] && i' != k.value;
        assert StudentKey(st.students[i']) != StudentKey(st.students[k.value]);
      }
    }
  }

  /** An event that some registration names is still stored after a write
      that keeps every event of `st` with an identity other than `id`. */
  lemma {:induction false} EventKept(st: Store, events: seq<Event>, id: Id, ev: Id)
    requires EventById(st.events, ev).Some?
    requires ev != id
    requires forall i :: 0 <= i < |st.events| && st.events[i].id != id ==> st.events[i] in events
    ensures EventById(events, ev).Some?
  {
    var e := EventById(st.events, ev).value;
    var j :| 0 <= j < |st.events| && st.events[j] == e;
    assert st.events[j] in events;
    var k :| 0 <= k < |events| && events[k] == st.events[j];
    assert events[k].id == ev;
  }

  /** Creating an event keeps every stored event. */
  lemma CreateEventResolves(st: Store, now: int, form: EventForm, poster: Option<string>)
    requires EventsResolve(st)
    ensures EventsResolve(CreateEvent(st, now, form, poster).store)
  {
    var r := CreateEvent(st, now, form, poster);
    if r.outcome.EventCreated? {
      forall i | 0 <= i < |st.events| ensures st.events[i] in r.store.events {
        assert r.store.events[i] == st.events[i];
      }
      forall i | 0 <= i < |st.registrations|
        ensures EventById(r.store.events, st.registrations[i].event.value).Some?
      {
        var ev := st.registrations[i].event.value;
        var e := EventById(st.events, ev).value;
        var j :| 0 <= j < |st.events| && st.events[j] == e;
        assert r.store.events[j].id == ev;
      }
    }
  }

  /** Updating an event keeps its identity, so every reference still
      resolves. */
  lemma UpdateEventResolves(st: Store, now: int, id: Id, form: EventForm, poster: Option<string>)
    requires EventsResolve(st)
    ensures EventsResolve(UpdateEvent(st, now, id, form, poster).store)
  {
    var r := UpdateEvent(st, now, id, form, poster);
    if r.store != st {
      forall i | 0 <= i < |st.registrations|
        ensures EventById(r.store.events, st.registrations[i].event.value).Some?
      {
        var ev := st.registrations[i].event.value;
        if ev != id {
          forall j | 0 <= j < |st.events| && st.events[j].id != id ensures st.events[j] in r.store.events {
            assert r.store.events[j] == st.events[j];
          }
          EventKept(st, r.store.events, id, ev);
        }
      }
    }
  }

  /** Deleting an event deletes exactly the registrations that would be
      left dangling. */
  lemma DeleteEventResolves(st: Store, id: Id)
    requires EventsResolve(st)
    ensures EventsResolve(DeleteEvent(st, id))
  {
    var r := DeleteEvent(st, id);
    forall i | 0 <= i < |r.registrations|
      ensures r.registrations[i].event.Some? && EventById(r.events, r.registrations[i].event.value).Some?
    {
      var reg := r.registrations[i];
      var j :| 0 <= j < |st.registrations| && st.registrations[j] == reg;
      EventKept(st, r.events, id, reg.event.value);
    }
  }

  /** Deleting a student leaves the events alone and only drops
      registrations. */
  lemma DeleteStudentResolves(st: Store, id: Id)
    requires EventsResolve(st)
    ensures EventsResolve(DeleteStudent(st, id))
  {
    var r := DeleteStudent(st, id);
    forall i | 0 <= i < |r.registrations|
      ensures r.registrations[i].event.Some? && EventById(r.events, r.registrations[i].event.value).Some?
    {
      var j :| 0 <= j < |st.registrations| && st.registrations[j] == r.registrations[i];
    }
  }
}

=== FILE: enrollment.dfy ===
/** The registration workflow: a student asks to attend an event, which
    creates a pending registration behind three guards, and the
    administrator approves or rejects registrations by identity. */
module Enrollment {
  import opened Optional
  import opened Records
  import opened Seqs
  import opened Stores

  /** The four replies to a registration request. */
  datatype RegisterOutcome = EventNotFound | Closed | AlreadyRegistered | Registered(id: Id)

  function IsPair(studentId: Id, eventId: Id): Registration -> bool
  {
    (r: Registration) => r.student == Some(studentId) && r.event == Some(eventId)
  }

  /** The duplicate check: some registration already links this student to
      this event, whatever its status. */
  function HasRegistration(regs: seq<Registration>, studentId: Id, eventId: Id): (b: bool)
    ensures b <==> exists i :: 0 <= i < |regs| && regs[i].student == Some(studentId) && regs[i].event == Some(eventId)
  {
    FirstIndex(regs, IsPair(studentId, eventId)).Some?
  }

  /** An event is past, and closed for registration, when its date lies
      strictly before `now`. */
  predicate IsPast(e: Event, now: int)
  {
    e.date < now
  }

  /** A student's request to register for an event. The event must exist;
      a past event is refused before the duplicate check runs; a pair that is
      already registered is refused; otherwise exactly one pending
      registration is appended under a fresh identity. The student identity
      is taken as given and not looked up. */
  function RegisterEvent(st: Store, now: int, studentId: Id, eventId: Id): (r: Step<RegisterOutcome>)
    ensures r.outcome == EventNotFound <==> EventById(st.events, eventId).None?
    ensures r.outcome == Closed <==>
      EventById(st.events, eventId).Some? && IsPast(EventById(st.events, eventId).value, now)
    ensures r.outcome == AlreadyRegistered <==>
      && EventById(st.events, eventId).Some?
      && !IsPast(EventById(st.events, eventId).value, now)
      && HasRegistration(st.registrations, studentId, eventId)
    ensures !r.outcome.Registered? ==> r.store == st
    ensures r.outcome.Registered? ==>
      && r.outcome.id == st.nextId
      && r.store.students == st.students
      && r.store.events == st.events
      && r.store.nextId == st.nextId + 1
      && r.store.registrations == st.registrations + [Registration(st.nextId, Some(studentId), Some(eventId), Pending)]
  {
    match EventById(st.events, eventId)
    case None => Step(EventNotFound, st)
    case Some(ev) =>
      if IsPast(ev, now) then Step(Closed, st)
      else if HasRegistration(st.registrations, studentId, eventId) then Step(AlreadyRegistered, st)
      else
        var reg := NewRegistration(st.nextId, Some(studentId), Some(eventId), Some("pending")).value;
        Step(Registered(reg.id), st.(registrations := st.registrations + [reg], nextId := st.nextId + 1))
  }

  /** Overwrite the status of the registration with identity `id` (the first
      one found); an unknown identity leaves the store as it is. There is no
      guard on the current status. */
  function SetStatus(st: Store, id: Id, status: Status): (r: Store)
    ensures r.students == st.students && r.events == st.events && r.nextId == st.nextId
    ensures |r.registrations| == |st.registrations|
    ensures forall i :: 0 <= i < |st.registrations| ==>
      r.registrations[i] == st.registrations[i]
      || (st.registrations[i].id == id && r.registrations[i] == st.registrations[i].(status := status))
    ensures RegistrationById(st.registrations, id).None? ==> r == st
    ensures RegistrationById(st.registrations, id).Some? ==>
      RegistrationById(r.registrations, id) == Some(RegistrationById(st.registrations, id).value.(status := status))
  {
    match FirstIndex(st.registrations, IsRegistration(id))
    case None => st
    case Some(k) =>
      var regs := st.registrations[k := st.registrations[k].(status := status)];
      FirstIndexAgrees(st.registrations, regs, IsRegistration(id));
      st.(registrations := regs)
  }

  /** The administrator's approval. */
  function Approve(st: Store, id: Id): (r: Store)
    ensures r.students == st.students && r.events == st.events && r.nextId == st.nextId
    ensures RegistrationById(st.registrations, id).None? ==> r == st
    ensures RegistrationById(st.registrations, id).Some? ==>
      RegistrationById(r.registrations, id) == Some(RegistrationById(st.registrations, id).value.(status := Approved))
    ensures RegistrationById(r.registrations, id).Some? <==> RegistrationById(st.registrations, id).Some?
    ensures RegistrationById(r.registrations, id).Some? ==> RegistrationById(r.registrations, id).value.status == Approved
    ensures |r.registrations| == |st.registrations|
    ensures forall i :: 0 <= i < |st.registrations| && st.registrations[i].id != id ==>
      r.registrations[i] == st.registrations[i]
  {
    SetStatus(st, id, Approved)
  }

  /** The administrator's rejection. */
  function Reject(st: Store, id: Id): (r: Store)
    ensures r.students == st.students && r.events == st.events && r.nextId == st.nextId
    ensures RegistrationById(st.registrations, id).None? ==> r == st
    ensures RegistrationById(st.registrations, id).Some? ==>
      RegistrationById(r.registrations, id) == Some(RegistrationById(st.registrations, id).value.(status := Rejected))
    ensures RegistrationById(r.registrations, id).Some? <==> RegistrationById(st.registrations, id).Some?
    ensures RegistrationById(r.registrations, id).Some? ==> RegistrationById(r.registrations, id).value.status == Rejected
    ensures |r.registrations| == |st.registrations|
    ensures forall i :: 0 <= i < |st.registrations| && st.registrations[i].id != id ==>
      r.registrations[i] == st.registrations[i]
  {
    SetStatus(st, id, Rejected)
  }

  /** Registering keeps the store consistent; in particular a pair is never
      registered twice. */
  lemma RegisterEventPreservesValid(st: Store, now: int, studentId: Id, eventId: Id)
    requires Valid(st)
    ensures Valid(RegisterEvent(st, now, studentId, eventId).store)
  {
    var r := RegisterEvent(st, now, studentId, eventId);
    if r.outcome.Registered? {
      var regs := r.store.registrations;
      var n := |st.registrations|;
      assert !HasRegistration(st.registrations, studentId, eventId);
      forall i, j | 0 <= i < j < |regs| ensures PairOf(regs[i]) != PairOf(regs[j]) && regs[i].id != regs[j].id {
        if j == n {
          assert regs[i] == st.registrations[i];
        } else {
          assert regs[i] == st.registrations[i] && regs[j] == st.registrations[j];
        }
      }
    }
  }

  /** Once a request has registered a pair, a later request for the same
      pair never registers again: it is refused as a duplicate, or as closed
      if the event has passed by then. */
  lemma RegisterTwiceRefused(st: Store, now: int, later: int, studentId: Id, eventId: Id)
    requires RegisterEvent(st, now, studentId, eventId).outcome.Registered?
    ensures var again := RegisterEvent(RegisterEvent(st, now, studentId, eventId).store, later, studentId, eventId);
      && again.outcome == (if later > EventById(st.events, eventId).value.date then Closed else AlreadyRegistered)
      && again.store == RegisterEvent(st, now, studentId, eventId).store
  {
    var first := RegisterEvent(st, now, studentId, eventId).store;
    var regs := first.registrations;
    assert regs[|regs| - 1].student == Some(studentId) && regs[|regs| - 1].event == Some(eventId);
  }

  /** A rejected registration, whatever its status was before, blocks a new
      request for the same pair: there is no way back to pending. */
  lemma RejectedIsFinal(st: Store, id: Id, prior: Status, now: int, studentId: Id, eventId: Id)
    requires RegistrationById(st.registrations, id) == Some(Registration(id, Some(studentId), Some(eventId), prior))
    ensures !RegisterEvent(Reject(st, id), now, studentId, eventId).outcome.Registered?
  {
    var after := Reject(st, id);
    var reg := RegistrationById(after.registrations, id).value;
    var i :| 0 <= i < |after.registrations| && after.registrations[i] == reg;
    assert after.registrations[i].student == Some(studentId) && after.registrations[i].event == Some(eventId);
  }

  /** Setting a status twice is the same as setting it once. */
  lemma SetStatusIdempotent(st: Store, id: Id, status: Status)
    ensures SetStatus(SetStatus(st, id, status), id, status) == SetStatus(st, id, status)
  {
    var once := SetStatus(st, id, status);
    FirstIndexAgrees(st.registrations, once.registrations, IsRegistration(id));
  }

  /** In a consistent store the status update hits exactly the registration
      with that identity, from whatever status it had, and no other. */
  lemma SetStatusTargetsOne(st: Store, id: Id, status: Status)
    requires Valid(st)
    ensures var r := SetStatus(st, id, status);
      forall i :: 0 <= i < |st.registrations| ==>
        r.registrations[i] == (if st.registrations[i].id == id
                               then st.registrations[i].(status := status)
                               else st.registrations[i])
  {
    var r := SetStatus(st, id, status);
    forall i | 0 <= i < |st.registrations| && st.registrations[i].id == id
      ensures r.registrations[i] == st.registrations[i].(status := status)
    {
      var k := FirstIndex(st.registrations, IsRegistration(id));
      assert k.Some?;
    }
  }

  /** Status updates keep the store consistent. */
  lemma SetStatusPreservesValid(st: Store, id: Id, status: Status)
    requires Valid(st)
    ensures Valid(SetStatus(st, id, status))
  {
    var r := SetStatus(st, id, status);
    var regs := r.registrations;
    forall i, j | 0 <= i < j < |regs| ensures PairOf(regs[i]) != PairOf(regs[j]) && regs[i].id != regs[j].id {
      assert PairOf(regs[i]) == PairOf(st.registrations[i]) && regs[i].id == st.registrations[i].id;
      assert PairOf(regs[j]) == PairOf(st.registrations[j]) && regs[j].id == st.registrations[j].id;
    }
  }

  /** A registration request only ever names a stored event. */
  lemma RegisterEventResolves(st: Store, now: int, studentId: Id, eventId: Id)
    requires EventsResolve(st)
    ensures EventsResolve(RegisterEvent(st, now, studentId, eventId).store)
  {
    var r := RegisterEvent(st, now, studentId, eventId);
    if r.outcome.Registered? {
      var regs := r.store.registrations;
      forall i | 0 <= i < |regs|
        ensures regs[i].event.Some? && EventById(r.store.events, regs[i].event.value).Some?
      {
        if i < |st.registrations| {
          assert regs[i] == st.registrations[i];
        }
      }
    }
  }

  /** Approval and rejection leave every event reference as it was. */
  lemma SetStatusResolves(st: Store, id: Id, status: Status)
    requires EventsResolve(st)
    ensures EventsResolve(SetStatus(st, id, status))
  {
    var r := SetStatus(st, id, status);
    forall i | 0 <= i < |r.registrations|
      ensures r.registrations[i].event == st.registrations[i].event
    {
    }
  }
}

=== FILE: manage.dfy ===
/** The administrator's "manage events" view: every event in ascending date
    order, each with whether it is completed, how many registrations it has,
    how many were approved and rejected, and how the approved ones spread
    over the student sections. */
module Manage {
  import opened Optional
  import opened Records
  import opened Seqs
  import opened Stores

  /** One line of the view. */
  datatype EventRow = EventRow(
    event: Event,
    isCompleted: bool,
    total: nat,
    approved: nat,
    rejected: nat,
    sectionCounts: map<Section, nat>)

  ghost predicate SortedByDate(es: seq<Event>)
  {
    forall i, j :: 0 <= i < j < |es| ==> es[i].date <= es[j].date
  }

  /** Place `e` into a date-sorted sequence. */
  function InsertByDate(e: Event, es: seq<Event>): (r: seq<Event>)
    requires SortedByDate(es)
    ensures SortedByDate(r)
    ensures multiset(r) == multiset(es) + multiset{e}
    ensures forall k :: 0 <= k < |r| ==> r[k] == e || r[k] in es
    decreases |es|
  {
    if |es| == 0 then [e]
    else if e.date <= es[0].date then [e] + es
    else
      assert es == [es[0]] + es[1..];
      [es[0]] + InsertByDate(e, es[1..])
  }

  /** The events in ascending date order (the order among equal dates is
      not promised). */
  function SortByDate(es: seq<Event>): (r: seq<Event>)
    ensures SortedByDate(r)
    ensures multiset(r) == multiset(es)
    ensures |r| == |es|
    decreases |es|
  {
    if |es| == 0 then []
    else
      assert es == [es[0]] + es[1..];
      var r := InsertByDate(es[0], SortByDate(es[1..]));
      assert |multiset(r)| == |multiset(es)|;
      r
  }

  /** The registration refers to the event `id` (a reference to a missing
      event resolves to nothing and so refers to no event of the store). */
  function ForEvent(id: Id): Registration -> bool
  {
    (r: Registration) => r.event == Some(id)
  }

  function HasStatus(s: Status): Registration -> bool
  {
    (r: Registration) => r.status == s
  }

  /** The registrations of one event, in store order. */
  function EventRegistrations(regs: seq<Registration>, id: Id): (own: seq<Registration>)
    ensures forall i :: 0 <= i < |own| ==> own[i] in regs && own[i].event == Some(id)
    ensures forall i :: 0 <= i < |regs| && regs[i].event == Some(id) ==> regs[i] in own
    ensures forall x :: multiset(own)[x] == (if x.event == Some(id) then multiset(regs)[x] else 0)
  {
    FilterMultiset(regs, ForEvent(id));
    Filter(regs, ForEvent(id))
  }

  /** How many of `regs` have status `s`. */
  function CountStatus(regs: seq<Registration>, s: Status): nat
  {
    |Filter(regs, HasStatus(s))|
  }

  /** The section of the registration's student, when the student
      reference is present and resolves to a stored student. */
  function SectionOf(students: seq<Student>, r: Registration): (sec: Option<Section>)
    ensures sec.Some? <==> r.student.Some? && StudentById(students, r.student.value).Some?
    ensures sec.Some? ==> sec.value == StudentById(students, r.student.value).value.section
  {
    match r.student
    case None => None
    case Some(sid) =>
      match StudentById(students, sid)
      case None => None
      case Some(stu) => Some(stu.section)
  }

  /** The registration is approved and its student is in section `sec`. */
  predicate CountsFor(students: seq<Student>, r: Registration, sec: Section)
  {
    r.status == Approved && SectionOf(students, r) == Some(sec)
  }

  /** How many of `regs` are approved registrations of students in `sec`. */
  function CountSection(regs: seq<Registration>, students: seq<Student>, sec: Section): nat
    decreases |regs|
  {
    if |regs| == 0 then 0
    else (if CountsFor(students, regs[0], sec) then 1 else 0) + CountSection(regs[1..], students, sec)
  }

  /** The entry of `m` for `s`, zero when absent. */
  function CountIn(m: map<Section, nat>, s: Section): nat
  {
    if s in m then m[s] else 0
  }

  /** The sum of all the section counts. */
  function SectionTotal(m: map<Section, nat>): nat
  {
    CountIn(m, EV1) + CountIn(m, EV2) + CountIn(m, EV3) + CountIn(m, EV4) + CountIn(m, EV5)
  }

  /** The reference section table: an entry for exactly the sections with
      at least one approved registration, holding that number. */
  function SectionTable(regs: seq<Registration>, students: seq<Student>): (m: map<Section, nat>)
    ensures forall s :: s in m <==> CountSection(regs, students, s) > 0
    ensures forall s :: CountIn(m, s) == CountSection(regs, students, s)
  {
    assert forall s :: s in AllSections by {
      forall s ensures s in AllSections {
        SectionsComplete(s);
      }
    }
    map s | s in AllSections && CountSection(regs, students, s) > 0 :: CountSection(regs, students, s)
  }

  /** The reference row of event `e`: counts over the registrations that
      refer to it, and the section table of the approved ones. */
  function Summary(e: Event, regs: seq<Registration>, students: seq<Student>, now: int): EventRow
  {
    var own := EventRegistrations(regs, e.id);
    EventRow(e, e.date < now, |own|, CountStatus(own, Approved), CountStatus(own, Rejected),
             SectionTable(own, students))
  }

  /** What a row promises: it is completed exactly when the event's date
      has passed; approved and rejected together never exceed the total; the
      section counts add up to at most the approved count; and every section
      listed has an approved registration of this event behind it. */
  lemma RowFacts(e: Event, regs: seq<Registration>, students: seq<Student>, now: int)
    ensures var row := Summary(e, regs, students, now);
      && row.event == e
      && (row.isCompleted <==> e.date < now)
      && row.approved + row.rejected <= row.total
      && SectionTotal(row.sectionCounts) <= row.approved
      && forall s :: s in row.sectionCounts ==>
           exists i :: 0 <= i < |regs| && regs[i].event == Some(e.id) && CountsFor(students, regs[i], s)
  {
    var own := EventRegistrations(regs, e.id);
    StatusCountsBound(own);
    SectionTotalBound(own, students);
    SectionsWitnessed(own, students);
  }

  /** No registration is both approved and rejected. */
  lemma {:induction false} StatusCountsBound(regs: seq<Registration>)
    ensures CountStatus(regs, Approved) + CountStatus(regs, Rejected) <= |regs|
    decreases |regs|
  {
    if |regs| > 0 {
      StatusCountsBound(regs[1..]);
    }
  }

  /** Each approved registration falls into at most one section. */
  lemma {:induction false} SectionTotalBound(regs: seq<Registration>, students: seq<Student>)
    ensures SectionTotal(SectionTable(regs, students)) <= CountStatus(regs, Approved)
    decreases |regs|
  {
    if |regs| > 0 {
      SectionTotalBound(regs[1..], students);
    }
  }

  /** A section with a positive count has an approved registration of a
      student in it. */
  lemma SectionsWitnessed(own: seq<Registration>, students: seq<Student>)
    ensures forall s :: CountSection(own, students, s) > 0 ==>
      exists i :: 0 <= i < |own| && CountsFor(students, own[i], s)
  {
    forall s | CountSection(own, students, s) > 0
      ensures exists i :: 0 <= i < |own| && CountsFor(students, own[i], s)
    {
      SectionWitness(own, students, s);
    }
  }

  lemma {:induction false} SectionWitness(regs: seq<Registration>, students: seq<Student>, s: Section)
    requires CountSection(regs, students, s) > 0
    ensures exists i :: 0 <= i < |regs| && CountsFor(students, regs[i], s)
    decreases |regs|
  {
    if !CountsFor(students, regs[0], s) {
      SectionWitness(regs[1..], students, s);
      var i :| 0 <= i < |regs[1..]| && CountsFor(students, regs[1..][i], s);
      assert regs[i + 1] == regs[1..][i];
    }
  }

  /** Counting a sequence extended by one more registration. */
  lemma {:induction false} CountSectionSnoc(regs: seq<Registration>, r: Registration, students: seq<Student>, s: Section)
    ensures CountSection(regs + [r], students, s) ==
      CountSection(regs, students, s) + (if CountsFor(students, r, s) then 1 else 0)
    decreases |regs|
  {
    if |regs| > 0 {
      assert (regs + [r])[1..] == regs[1..] + [r];
      CountSectionSnoc(regs[1..], r, students, s);
    }
  }

  /** One row of the view, computed as the page does it: the event's
      registrations are filtered out, approved and rejected ones counted,
      and the approved ones whose student resolves are tallied by section
      one by one. */
  method Summarize(e: Event, regs: seq<Registration>, students: seq<Student>, now: int) returns (row: EventRow)
    ensures row == Summary(e, regs, students, now)
  {
    var own := EventRegistrations(regs, e.id);
    var counts: map<Section, nat> := map[];
    for i := 0 to |own|
      invariant forall s :: s in counts <==> CountSection(own[..i], students, s) > 0
      invariant forall s :: s in counts ==> counts[s] == CountSection(own[..i], students, s)
    {
      var r := own[i];
      assert own[..i + 1] == own[..i] + [r];
      forall s {
        CountSectionSnoc(own[..i], r, students, s);
      }
      if r.status == Approved && r.student.Some? {
        match StudentById(students, r.student.value) {
          case Some(stu) =>
            var sec := stu.section;
            counts := counts[sec := (if sec in counts then counts[sec] else 0) + 1];
          case None =>
        }
      }
    }
    assert own[..|own|] == own;
    var table := SectionTable(own, students);
    assert counts == table by {
      forall s ensures (s in counts <==> s in table) && (s in counts ==> counts[s] == table[s]) {
        SectionsComplete(s);
      }
    }
    row := EventRow(e, e.date < now, |own|, CountStatus(own, Approved), CountStatus(own, Rejected), counts);
  }

  function EventsOf(rows: seq<EventRow>): (es: seq<Event>)
    ensures |es| == |rows|
    ensures forall i :: 0 <= i < |rows| ==> es[i] == rows[i].event
  {
    seq(|rows|, i requires 0 <= i < |rows| => rows[i].event)
  }

  /** One row per event of `events`, in the same order. */
  method SummarizeAll(events: seq<Event>, st: Store, now: int) returns (rows: seq<EventRow>)
    ensures |rows| == |events|
    ensures forall k :: 0 <= k < |rows| ==> rows[k] == Summary(events[k], st.registrations, st.students, now)
  {
    rows := [];
    for i := 0 to |events|
      invariant |rows| == i
      invariant forall k :: 0 <= k < i ==> rows[k] == Summary(events[k], st.registrations, st.students, now)
    {
      var row := Summarize(events[i], st.registrations, st.students, now);
      rows := rows + [row];
    }
  }

  /** The whole view: one row per stored event, in ascending date order. */
  method ManageView(st: Store, now: int) returns (rows: seq<EventRow>)
    ensures |rows| == |st.events|
    ensures multiset(EventsOf(rows)) == multiset(st.events)
    ensures forall i, j :: 0 <= i < j < |rows| ==> rows[i].event.date <= rows[j].event.date
    ensures forall i :: 0 <= i < |rows| ==>
      rows[i] == Summary(rows[i].event, st.registrations, st.students, now)
  {
    var sorted := SortByDate(st.events);
    rows := SummarizeAll(sorted, st, now);
    RowsFollow(rows, sorted, st, now);
  }

  lemma RowsFollow(rows: seq<EventRow>, sorted: seq<Event>, st: Store, now: int)
    requires |rows| == |sorted| && SortedByDate(sorted)
    requires forall k :: 0 <= k < |rows| ==> rows[k] == Summary(sorted[k], st.registrations, st.students, now)
    ensures EventsOf(rows) == sorted
    ensures forall i, j :: 0 <= i < j < |rows| ==> rows[i].event.date <= rows[j].event.date
    ensures forall i :: 0 <= i < |rows| ==> rows[i] == Summary(rows[i].event, st.registrations, st.students, now)
  {
    forall i, j | 0 <= i < j < |rows| ensures rows[i].event.date <= rows[j].event.date {
      assert rows[i].event == sorted[i] && rows[j].event == sorted[j];
    }
  }

  /** A registration that does not refer to event `e` (one whose event
      reference is absent in particular) changes nothing in `e`'s row,
      wherever it stands. */
  lemma UnrelatedRegistrationIgnored(e: Event, a: seq<Registration>, r: Registration, b: seq<Registration>,
                                     students: seq<Student>, now: int)
    requires r.event != Some(e.id)
    ensures Summary(e, a + [r] + b, students, now) == Summary(e, a + b, students, now)
  {
    var keep := ForEvent(e.id);
    FilterConcat(a + [r], b, keep);
    FilterConcat(a, [r], keep);
    FilterConcat(a, b, keep);
    assert Filter([r], keep) == [] by {
      assert [r][1..] == [];
    }
    assert Filter(a + [r], keep) == Filter(a, keep);
    assert EventRegistrations(a + [r] + b, e.id) == EventRegistrations(a + b, e.id);
  }

  /** An approved registration of the event whose student reference does
      not resolve counts as approved but in no section. */
  lemma UnresolvedStudentInNoSection(e: Event, regs: seq<Registration>, r: Registration,
                                     students: seq<Student>, now: int)
    requires r.event == Some(e.id) && r.status == Approved
    requires SectionOf(students, r).None?
    ensures Summary(e, regs + [r], students, now).total == Summary(e, regs, students, now).total + 1
    ensures Summary(e, regs + [r], students, now).approved == Summary(e, regs, students, now).approved + 1
    ensures Summary(e, regs + [r], students, now).sectionCounts == Summary(e, regs, students, now).sectionCounts
  {
    var own := EventRegistrations(regs, e.id);
    var own' := EventRegistrations(regs + [r], e.id);
    FilterConcat(regs, [r], ForEvent(e.id));
    assert [r][1..] == [];
    assert Filter([r], ForEvent(e.id)) == [r];
    assert own' == own + [r];
    FilterConcat(own, [r], HasStatus(Approved));
    assert Filter([r], HasStatus(Approved)) == [r];
    assert CountStatus(own', Approved) == CountStatus(own, Approved) + 1;
    forall s ensures CountSection(own', students, s) == CountSection(own, students, s) {
      CountSectionSnoc(own, r, students, s);
    }
    var t, t' := SectionTable(own, students), SectionTable(own', students);
    assert t == t' by {
      forall s ensures (s in t <==> s in t') && (s in t ==> t[s] == t'[s]) {
        assert CountSection(own', students, s) == CountSection(own, students, s);
      }
    }
  }
}

=== FILE: optional.dfy ===
/** An optional value: a field that may be absent from a record or a form,
    or a lookup that may find nothing. */
module Optional {
  datatype Option<T> = None | Some(value: T)
}

=== FILE: records.dfy ===
/** The three record shapes of the data store (students, events and
    registrations), their enumerated fields, and the defaults and
    required-field checks the schemas apply when a record is created. */
module Records {
  import opened Optional

  /** A document identity. Identities are opaque; the store hands out fresh ones. */
  type Id = nat

  /** The five student sections, stored as the codes "EV-1" .. "EV-5". */
  datatype Section = EV1 | EV2 | EV3 | EV4 | EV5

  const SectionCodes: seq<string> := ["EV-1", "EV-2", "EV-3", "EV-4", "EV-5"]

  const AllSections: seq<Section> := [EV1, EV2, EV3, EV4, EV5]

  function SectionCode(s: Section): string
  {
    match s
    case EV1 => "EV-1"
    case EV2 => "EV-2"
    case EV3 => "EV-3"
    case EV4 => "EV-4"
    case EV5 => "EV-5"
  }

  /** The section enum check: a code is accepted exactly when it is one of the
      five section codes, and then it names the section it is the code of. */
  function ParseSection(c: string): (r: Option<Section>)
    ensures r.Some? <==> c in SectionCodes
    ensures forall s :: r == Some(s) <==> SectionCode(s) == c
  {
    if c == "EV-1" then Some(EV1)
    else if c == "EV-2" then Some(EV2)
    else if c == "EV-3" then Some(EV3)
    else if c == "EV-4" then Some(EV4)
    else if c == "EV-5" then Some(EV5)
    else None
  }

  /** Event categories. */
  datatype Category = Sports | Technical | Cultural | Other

  const CategoryNames: seq<string> := ["Sports", "Technical", "Cultural", "Other"]

  /** The schema's default category. */
  const DefaultCategory: Category := Other

  function CategoryName(c: Category): string
  {
    match c
    case Sports => "Sports"
    case Technical => "Technical"
    case Cultural => "Cultural"
    case Other => "Other"
  }

  /** The category enum check. */
  function ParseCategory(n: string): (r: Option<Category>)
    ensures r.Some? <==> n in CategoryNames
    ensures forall c :: r == Some(c) <==> CategoryName(c) == n
  {
    if n == "Sports" then Some(Sports)
    else if n == "Technical" then Some(Technical)
    else if n == "Cultural" then Some(Cultural)
    else if n == "Other" then Some(Other)
    else None
  }

  /** Registration status. */
  datatype Status = Pending | Approved | Rejected

  const StatusNames: seq<string> := ["pending", "approved", "rejected"]

  function StatusName(s: Status): string
  {
    match s
    case Pending => "pending"
    case Approved => "approved"
    case Rejected => "rejected"
  }

  /** The status enum check. */
  function ParseStatus(n: string): (r: Option<Status>)
    ensures r.Some? <==> n in StatusNames
    ensures forall s :: r == Some(s) <==> StatusName(s) == n
  {
    if n == "pending" then Some(Pending)
    else if n == "approved" then Some(Approved)
    else if n == "rejected" then Some(Rejected)
    else None
  }

  /** A student account. The section is an enum value, so it is never absent. */
  datatype Student = Student(id: Id, name: string, email: string, password: string, section: Section)

  /** An event. `date` is required, so it is always present; `description`
      and `location` are free text ("" when left blank); `poster` is the
      optional stored filename of an uploaded image. */
  datatype Event = Event(
    id: Id,
    title: string,
    description: string,
    date: int,
    location: string,
    capacity: int,
    poster: Option<string>,
    createdAt: int,
    category: Category)

  /** A registration of a student for an event. The schema requires neither
      reference, so either may be absent or name a document that does not
      exist. The routes always set both, and they keep the event reference
      resolvable (`Stores.EventsResolve`). They do not do the same for the
      student reference. */
  datatype Registration = Registration(id: Id, student: Option<Id>, event: Option<Id>, status: Status)

  /** A required string field is present and non-empty. */
  predicate Given(s: string)
  {
    s != ""
  }

  /** The student schema's validation of a new student: name, email and
      password are required, and the section is required and must be one of
      the five codes. Uniqueness of the email is checked by the store. */
  function NewStudent(id: Id, name: string, email: string, password: string, section: string): (r: Option<Student>)
    ensures r.Some? <==> Given(name) && Given(email) && Given(password) && section in SectionCodes
    ensures r.Some? ==> r.value.id == id && r.value.name == name && r.value.email == email
    ensures r.Some? ==> r.value.password == password && SectionCode(r.value.section) == section
  {
    if Given(name) && Given(email) && Given(password) then
      match ParseSection(section)
      case Some(s) => Some(Student(id, name, email, password, s))
      case None => None
    else None
  }

  /** The event schema's validation of a new event: title and date are
      required; capacity defaults to 0 and category to "Other" when not
      supplied, and a supplied category must be one of the four names;
      `createdAt` is the creation instant. */
  function NewEvent(
    id: Id, title: string, description: string, date: Option<int>, location: string,
    capacity: Option<int>, poster: Option<string>, category: Option<string>, createdAt: int): (r: Option<Event>)
    ensures r.Some? <==> Given(title) && date.Some? && (category.None? || category.value in CategoryNames)
    ensures r.Some? ==> r.value.id == id && r.value.title == title && Some(r.value.date) == date
    ensures r.Some? ==> r.value.description == description && r.value.location == location
    ensures r.Some? && capacity.None? ==> r.value.capacity == 0
    ensures r.Some? && capacity.Some? ==> r.value.capacity == capacity.value
    ensures r.Some? && category.None? ==> r.value.category == Other
    ensures r.Some? && category.Some? ==> CategoryName(r.value.category) == category.value
    ensures r.Some? ==> r.value.poster == poster && r.value.createdAt == createdAt
  {
    if !Given(title) || date.None? then None
    else
      var cat := if category.None? then Some(DefaultCategory) else ParseCategory(category.value);
      match cat
      case None => None
      case Some(c) => Some(Event(id, title, description, date.value, location,
                                  (if capacity.Some? then capacity.value else 0), poster, createdAt, c))
  }

  /** The registration schema's validation of a new registration: neither
      reference is required; a supplied status must be one of the three
      names, and a registration created without one is pending. */
  function NewRegistration(id: Id, student: Option<Id>, event: Option<Id>, status: Option<string>): (r: Option<Registration>)
    ensures r.Some? <==> status.None? || status.value in StatusNames
    ensures r.Some? ==> r.value.id == id && r.value.student == student && r.value.event == event
    ensures r.Some? && status.None? ==> r.value.status == Pending
    ensures r.Some? && status.Some? ==> StatusName(r.value.status) == status.value
  {
    var parsed := if status.None? then Some(Pending) else ParseStatus(status.value);
    match parsed
    case None => None
    case Some(s) => Some(Registration(id, student, event, s))
  }

  /** Every section is one of the five listed. */
  lemma SectionsComplete(s: Section)
    ensures s in AllSections
  {
  }
}

=== FILE: seqs.dfy ===
/** Sequence operations the document store performs on a collection:
    find the first matching document, keep the matching ones, remove one. */
module Seqs {
  import opened Optional

  /** Position of the first element satisfying `p`, if any (a `findOne`). */
  function FirstIndex<T>(s: seq<T>, p: T -> bool): (r: Option<nat>)
    ensures r.Some? ==> r.value < |s| && p(s[r.value])
    ensures r.Some? ==> forall j :: 0 <= j < r.value ==> !p(s[j])
    ensures r.None? <==> forall j :: 0 <= j < |s| ==> !p(s[j])
    decreases |s|
  {
    if |s| == 0 then None
    else if p(s[0]) then Some(0)
    else match FirstIndex(s[1..], p)
      case None => None
      case Some(k) => Some(k + 1)
  }

  /** The elements satisfying `keep`, in their original order (a `deleteMany`
      keeps the complement; a query `filter` keeps the matches). */
  function Filter<T>(s: seq<T>, keep: T -> bool): (r: seq<T>)
    ensures |r| <= |s|
    ensures forall i :: 0 <= i < |r| ==> r[i] in s && keep(r[i])
    ensures forall i :: 0 <= i < |s| && keep(s[i]) ==> s[i] in r
    decreases |s|
  {
    if |s| == 0 then []
    else if keep(s[0]) then [s[0]] + Filter(s[1..], keep)
    else Filter(s[1..], keep)
  }

  /** `s` without its element at position `k`. */
  function RemoveAt<T>(s: seq<T>, k: nat): (r: seq<T>)
    requires k < |s|
    ensures |r| == |s| - 1
    ensures forall i :: 0 <= i < k ==> r[i] == s[i]
    ensures forall i :: k <= i < |r| ==> r[i] == s[i + 1]
  {
    s[..k] + s[k + 1..]
  }

  /** No two elements of `s` share a key. */
  ghost predicate DistinctBy<T, K>(s: seq<T>, key: T -> K)
  {
    forall i, j :: 0 <= i < j < |s| ==> key(s[i]) != key(s[j])
  }

  /** Two sequences of equal length whose elements agree on `p` position by
      position have the same first match. */
  lemma {:induction false} FirstIndexAgrees<T>(s: seq<T>, t: seq<T>, p: T -> bool)
    requires |s| == |t|
    requires forall i :: 0 <= i < |s| ==> p(s[i]) == p(t[i])
    ensures FirstIndex(s, p) == FirstIndex(t, p)
    decreases |s|
  {
    if |s| > 0 && !p(s[0]) {
      FirstIndexAgrees(s[1..], t[1..], p);
    }
  }

  /** Filtering distributes over concatenation. */
  lemma {:induction false} FilterConcat<T>(a: seq<T>, b: seq<T>, keep: T -> bool)
    ensures Filter(a + b, keep) == Filter(a, keep) + Filter(b, keep)
    decreases |a|
  {
    if |a| > 0 {
      assert (a + b)[1..] == a[1..] + b;
      FilterConcat(a[1..], b, keep);
    } else {
      assert a + b == b;
    }
  }

  /** Filtering keeps each matching element exactly as often as it occurs,
      and drops every other element. */
  lemma {:induction false} FilterMultiset<T>(s: seq<T>, keep: T -> bool)
    ensures forall x :: multiset(Filter(s, keep))[x] == (if keep(x) then multiset(s)[x] else 0)
    decreases |s|
  {
    if |s| > 0 {
      FilterMultiset(s[1..], keep);
      assert s == [s[0]] + s[1..];
    }
  }

  /** Filtering a single element. */
  lemma FilterOne<T>(x: T, keep: T -> bool)
    ensures Filter([x], keep) == if keep(x) then [x] else []
  {
    assert [x][1..] == [];
  }

  /** Filtering a four-element sequence, element by element. */
  lemma FilterFour<T>(a: T, b: T, c: T, d: T, k: T -> bool)
    ensures Filter([a, b, c, d], k) ==
      (if k(a) then [a] else []) + (if k(b) then [b] else []) + (if k(c) then [c] else []) + (if k(d) then [d] else [])
  {
    assert [a, b, c, d] == [a] + [b] + [c] + [d];
    FilterConcat([a] + [b] + [c], [d], k);
    FilterConcat([a] + [b], [c], k);
    FilterConcat([a], [b], k);
    FilterOne(a, k);
    FilterOne(b, k);
    FilterOne(c, k);
    FilterOne(d, k);
  }

  /** Keeping a subset of a collection keeps its keys distinct. */
  lemma {:induction false} FilterDistinct<T, K>(s: seq<T>, keep: T -> bool, key: T -> K)
    requires DistinctBy(s, key)
    ensures DistinctBy(Filter(s, keep), key)
    decreases |s|
  {
    if |s| > 0 {
      var tail := s[1..];
      assert DistinctBy(tail, key) by {
        forall i, j | 0 <= i < j < |tail| ensures key(tail[i]) != key(tail[j]) {
          assert tail[i] == s[i + 1] && tail[j] == s[j + 1];
        }
      }
      FilterDistinct(tail, keep, key);
      var rest := Filter(tail, keep);
      if keep(s[0]) {
        var r := [s[0]] + rest;
        assert r == Filter(s, keep);
        forall i, j | 0 <= i < j < |r| ensures key(r[i]) != key(r[j]) {
          if i == 0 {
            assert r[j] == rest[j - 1];
            assert r[j] in tail;
            var k :| 0 <= k < |tail| && tail[k] == r[j];
            assert s[k + 1] == r[j];
          } else {
            assert r[i] == rest[i - 1] && r[j] == rest[j - 1];
          }
        }
      }
    }
  }

  /** Removing one element keeps the remaining keys distinct. */
  lemma RemoveAtDistinct<T, K>(s: seq<T>, k: nat, key: T -> K)
    requires k < |s|
    requires DistinctBy(s, key)
    ensures DistinctBy(RemoveAt(s, k), key)
  {
    var r := RemoveAt(s, k);
    forall i, j | 0 <= i < j < |r| ensures key(r[i]) != key(r[j]) {
      var i' := if i < k then i else i + 1;
      var j' := if j < k then j else j + 1;
      assert r[i] == s[i'] && r[j] == s[j'];
    }
  }
}

=== FILE: session.dfy ===
/** Any interleaving of the application's writes, replayed from an empty
    store, and the consistency it keeps; plus worked scenarios. */
module Session {
  import opened Optional
  import opened Records
  import opened Seqs
  import opened Stores
  import opened Enrollment
  import opened Admin
  import opened Manage

  /** One write request, with the current instant where the route reads it. */
  datatype Action =
    | SignUp(name: string, email: string, password: string)
    | RegisterFor(at: int, studentId: Id, eventId: Id)
    | CreateEventAt(at: int, form: EventForm, poster: Option<string>)
    | UpdateEventAt(at: int, id: Id, form: EventForm, poster: Option<string>)
    | DeleteEventById(id: Id)
    | DeleteStudentById(id: Id)
    | ApproveById(id: Id)
    | RejectById(id: Id)

  function Apply(st: Store, a: Action): Store
  {
    match a
    case SignUp(n, e, p) => InsertStudent(st, n, e, p).store
    case RegisterFor(now, s, e) => RegisterEvent(st, now, s, e).store
    case CreateEventAt(now, f, p) => CreateEvent(st, now, f, p).store
    case UpdateEventAt(now, id, f, p) => UpdateEvent(st, now, id, f, p).store
    case DeleteEventById(id) => DeleteEvent(st, id)
    case DeleteStudentById(id) => DeleteStudent(st, id)
    case ApproveById(id) => Approve(st, id)
    case RejectById(id) => Reject(st, id)
  }

  function Run(st: Store, actions: seq<Action>): Store
    decreases |actions|
  {
    if |actions| == 0 then st else Run(Apply(st, actions[0]), actions[1..])
  }

  /** Every write keeps the store consistent. */
  lemma ApplyPreservesValid(st: Store, a: Action)
    requires Valid(st)
    ensures Valid(Apply(st, a))
  {
    match a
    case SignUp(n, e, p) => InsertStudentPreservesValid(st, n, e, p);
    case RegisterFor(now, s, e) => RegisterEventPreservesValid(st, now, s, e);
    case CreateEventAt(now, f, p) => CreateEventPreservesValid(st, now, f, p);
    case UpdateEventAt(now, id, f, p) => UpdateEventPreservesValid(st, now, id, f, p);
    case DeleteEventById(id) => DeleteEventPreservesValid(st, id);
    case DeleteStudentById(id) => DeleteStudentPreservesValid(st, id);
    case ApproveById(id) => SetStatusPreservesValid(st, id, Approved);
    case RejectById(id) => SetStatusPreservesValid(st, id, Rejected);
  }

  /** Whatever sequence of writes is applied to a consistent store, the
      result is consistent: unique identities, unique emails, and at most one
      registration per (student, event) pair. */
  lemma {:induction false} ReachableValid(st: Store, actions: seq<Action>)
    requires Valid(st)
    ensures Valid(Run(st, actions))
    decreases |actions|
  {
    if |actions| > 0 {
      ApplyPreservesValid(st, actions[0]);
      ReachableValid(Apply(st, actions[0]), actions[1..]);
    }
  }

  /** Every write keeps every event reference resolvable. */
  lemma ApplyResolves(st: Store, a: Action)
    requires EventsResolve(st)
    ensures EventsResolve(Apply(st, a))
  {
    match a
    case SignUp(n, e, p) =>
    case RegisterFor(now, s, e) => RegisterEventResolves(st, now, s, e);
    case CreateEventAt(now, f, p) => CreateEventResolves(st, now, f, p);
    case UpdateEventAt(now, id, f, p) => UpdateEventResolves(st, now, id, f, p);
    case DeleteEventById(id) => DeleteEventResolves(st, id);
    case DeleteStudentById(id) => DeleteStudentResolves(st, id);
    case ApproveById(id) => SetStatusResolves(st, id, Approved);
    case RejectById(id) => SetStatusResolves(st, id, Rejected);
  }

  /** Whatever sequence of writes is applied, no registration is left
      naming a missing event. */
  lemma {:induction false} ReachableResolves(st: Store, actions: seq<Action>)
    requires EventsResolve(st)
    ensures EventsResolve(Run(st, actions))
    decreases |actions|
  {
    if |actions| > 0 {
      ApplyResolves(st, actions[0]);
      ReachableResolves(Apply(st, actions[0]), actions[1..]);
    }
  }

  /** Every store the application reaches from the empty one is consistent,
      and each of its registrations names a stored event. (Student
      references carry no such promise: a request does not look the student
      up.) */
  lemma ReachableFromEmpty(actions: seq<Action>)
    ensures Valid(Run(EmptyStore, actions))
    ensures EventsResolve(Run(EmptyStore, actions))
  {
    EmptyValid();
    ReachableValid(EmptyStore, actions);
    ReachableResolves(EmptyStore, actions);
  }

  /** Every registration stored under `id` has been approved or rejected,
      and `id` has been handed out, so no later registration can take it. */
  ghost predicate Settled(st: Store, id: Id)
  {
    && id < st.nextId
    && forall i :: 0 <= i < |st.registrations| && st.registrations[i].id == id ==>
         st.registrations[i].status != Pending
  }

  /** No write turns a decided registration back to pending: approval and
      rejection only set decided statuses, a new request takes a fresh
      identity, and the other writes keep or drop registrations. */
  lemma ApplySettled(st: Store, a: Action, id: Id)
    requires Settled(st, id)
    ensures Settled(Apply(st, a), id)
  {
    var r := Apply(st, a);
    match a
    case RegisterFor(now, s, e) =>
      forall i | 0 <= i < |r.registrations| && r.registrations[i].id == id
        ensures r.registrations[i].status != Pending
      {
        assert i < |st.registrations| ==> r.registrations[i] == st.registrations[i];
      }
    case DeleteEventById(x) =>
      forall i | 0 <= i < |r.registrations| && r.registrations[i].id == id
        ensures r.registrations[i].status != Pending
      {
        var j :| 0 <= j < |st.registrations| && st.registrations[j] == r.registrations[i];
      }
    case DeleteStudentById(x) =>
      forall i | 0 <= i < |r.registrations| && r.registrations[i].id == id
        ensures r.registrations[i].status != Pending
      {
        var j :| 0 <= j < |st.registrations| && st.registrations[j] == r.registrations[i];
      }
    case _ =>
  }

  /** A registration that has been approved or rejected never becomes
      pending again, whatever writes follow; it may only disappear with its
      event or student. */
  lemma {:induction false} NeverReopens(st: Store, actions: seq<Action>, id: Id)
    requires Valid(st)
    requires RegistrationById(st.registrations, id).Some?
    requires RegistrationById(st.registrations, id).value.status != Pending
    ensures RegistrationById(Run(st, actions).registrations, id).Some? ==>
      RegistrationById(Run(st, actions).registrations, id).value.status != Pending
  {
    var reg := RegistrationById(st.registrations, id).value;
    var k :| 0 <= k < |st.registrations| && st.registrations[k] == reg;
    forall i | 0 <= i < |st.registrations| && st.registrations[i].id == id
      ensures st.registrations[i].status != Pending
    {
      assert RegistrationKey(st.registrations[i]) == RegistrationKey(st.registrations[k]);
    }
    RunSettled(st, actions, id);
    var end := Run(st, actions);
    if RegistrationById(end.registrations, id).Some? {
      var x := RegistrationById(end.registrations, id).value;
      var j :| 0 <= j < |end.registrations| && end.registrations[j] == x;
    }
  }

  lemma {:induction false} RunSettled(st: Store, actions: seq<Action>, id: Id)
    requires Settled(st, id)
    ensures Settled(Run(st, actions), id)
    decreases |actions|
  {
    if |actions| > 0 {
      ApplySettled(st, actions[0], id);
      RunSettled(Apply(st, actions[0]), actions[1..], id);
    }
  }

  /** A worked example for the manage view: an event with two approved
      registrations of EV-1 students, one rejected and one pending. */
  const ScenarioEvent: Event := Event(0, "Hackathon", "", 100, "Hall", 0, None, 0, Other)
  const ScenarioStudents: seq<Student> :=
    [Student(1, "A", "a@x.com", "p", EV1), Student(2, "B", "b@x.com", "q", EV1)]
  const ScenarioRegs: seq<Registration> :=
    [Registration(3, Some(1), Some(0), Approved), Registration(4, Some(2), Some(0), Approved),
     Registration(5, Some(6), Some(0), Rejected), Registration(7, Some(8), Some(0), Pending)]

  lemma ScenarioCounts()
    ensures Filter(ScenarioRegs, ForEvent(0)) == ScenarioRegs
    ensures CountStatus(ScenarioRegs, Approved) == 2
    ensures CountStatus(ScenarioRegs, Rejected) == 1
  {
    var regs := ScenarioRegs;
    FilterFour(regs[0], regs[1], regs[2], regs[3], ForEvent(0));
    FilterFour(regs[0], regs[1], regs[2], regs[3], HasStatus(Approved));
    FilterFour(regs[0], regs[1], regs[2], regs[3], HasStatus(Rejected));
  }

  lemma ScenarioSections()
    ensures forall s :: CountSection(ScenarioRegs, ScenarioStudents, s) == (if s == EV1 then 2 else 0)
  {
    var students, regs := ScenarioStudents, ScenarioRegs;
    assert SectionOf(students, regs[0]) == Some(EV1) by {
      assert FirstIndex(students, IsStudent(1)) == Some(0);
    }
    assert SectionOf(students, regs[1]) == Some(EV1) by {
      assert students[1..] == [students[1]];
      assert FirstIndex(students[1..], IsStudent(2)) == Some(0);
      assert FirstIndex(students, IsStudent(2)) == Some(1);
    }
    assert regs[1..] == [regs[1], regs[2], regs[3]];
    assert regs[2..] == [regs[2], regs[3]];
    forall s ensures CountSection(regs, students, s) == (if s == EV1 then 2 else 0) {
      assert CountSection([regs[3]], students, s) == 0;
      assert CountSection(regs[2..], students, s) == 0;
    }
  }

  lemma ScenarioTable()
    ensures SectionTable(ScenarioRegs, ScenarioStudents) == map[EV1 := 2]
  {
    ScenarioSections();
    var t := SectionTable(ScenarioRegs, ScenarioStudents);
    forall s ensures (s in t <==> s == EV1) && (s in t ==> t[s] == 2) {
      assert CountIn(t, s) == CountSection(ScenarioRegs, ScenarioStudents, s);
    }
  }

  /** The worked example's row: four registrations in all, two approved,
      one rejected, not completed, and the section table {EV-1: 2}. */
  lemma ManageScenario()
    ensures Summary(ScenarioEvent, ScenarioRegs, ScenarioStudents, 50)
         == EventRow(ScenarioEvent, false, 4, 2, 1, map[EV1 := 2])
  {
    ScenarioCounts();
    ScenarioTable();
  }
}

=== FILE: store.dfy ===
/** The data store: the three collections as one immutable value, lookups by
    identity, and the consistency invariant every operation keeps. */
module Stores {
  import opened Optional
  import opened Records
  import opened Seqs

  /** The three collections in insertion order, and the next fresh identity
      (identities are never reused, as with generated object ids). */
  datatype Store = Store(
    students: seq<Student>,
    events: seq<Event>,
    registrations: seq<Registration>,
    nextId: Id)

  /** An operation's reply together with the store it leaves behind. */
  datatype Step<O> = Step(outcome: O, store: Store)

  const EmptyStore: Store := Store([], [], [], 0)

  function StudentKey(s: Student): Id { s.id }
  function EmailOf(s: Student): string { s.email }
  function EventKey(e: Event): Id { e.id }
  function RegistrationKey(r: Registration): Id { r.id }
  function PairOf(r: Registration): (Option<Id>, Option<Id>) { (r.student, r.event) }

  function IsStudent(id: Id): Student -> bool { (s: Student) => s.id == id }
  function IsEvent(id: Id): Event -> bool { (e: Event) => e.id == id }
  function IsRegistration(id: Id): Registration -> bool { (r: Registration) => r.id == id }

  /** `findById` on students: the first student with that identity. */
  function StudentById(students: seq<Student>, id: Id): (r: Option<Student>)
    ensures r.Some? ==> r.value in students && r.value.id == id
    ensures r.None? <==> forall i :: 0 <= i < |students| ==> students[i].id != id
  {
    match FirstIndex(students, IsStudent(id))
    case None => None
    case Some(k) => Some(students[k])
  }

  /** `findById` on events. */
  function EventById(events: seq<Event>, id: Id): (r: Option<Event>)
    ensures r.Some? ==> r.value in events && r.value.id == id
    ensures r.None? <==> forall i :: 0 <= i < |events| ==> events[i].id != id
  {
    match FirstIndex(events, IsEvent(id))
    case None => None
    case Some(k) => Some(events[k])
  }

  /** `findById` on registrations. */
  function RegistrationById(regs: seq<Registration>, id: Id): (r: Option<Registration>)
    ensures r.Some? ==> r.value in regs && r.value.id == id
    ensures r.None? <==> forall i :: 0 <= i < |regs| ==> regs[i].id != id
  {
    match FirstIndex(regs, IsRegistration(id))
    case None => None
    case Some(k) => Some(regs[k])
  }

  /** A student record satisfies the student schema's required fields. */
  predicate Complete(s: Student)
  {
    Given(s.name) && Given(s.email) && Given(s.password)
  }

  /** The store's consistency: identities are unique in each collection and
      below the next fresh identity, emails are unique (the unique index),
      students carry their required fields, and there is at most one
      registration per (student, event) pair. */
  ghost predicate Valid(st: Store)
  {
    && DistinctBy(st.students, StudentKey)
    && DistinctBy(st.events, EventKey)
    && DistinctBy(st.registrations, RegistrationKey)
    && DistinctBy(st.students, EmailOf)
    && DistinctBy(st.registrations, PairOf)
    && (forall i :: 0 <= i < |st.students| ==> st.students[i].id < st.nextId && Complete(st.students[i]))
    && (forall i :: 0 <= i < |st.events| ==> st.events[i].id < st.nextId)
    && (forall i :: 0 <= i < |st.registrations| ==> st.registrations[i].id < st.nextId)
  }

  /** Every registration names an event, and that event is stored. The
      routes keep this for events (a request for an unknown event is
      refused, and deleting an event deletes its registrations), but not
      for students. */
  ghost predicate EventsResolve(st: Store)
  {
    forall i :: 0 <= i < |st.registrations| ==>
      st.registrations[i].event.Some? && EventById(st.events, st.registrations[i].event.value).Some?
  }

  /** The empty store is consistent. */
  lemma EmptyValid()
    ensures Valid(EmptyStore)
  {
  }
}
